=== FILE: README.md ===
# Super Seisan settlement calculator, in Dafny

Super Seisan is an Android app for splitting shared expenses ("seisan" is
Japanese for settling up). A settlement has participants, currencies and
expense items. Each item has:

- a price, a quantity and an optional currency (with a rate to the native unit);
- an optional payer;
- a list of beneficiaries.

`ModelMapping` turns storage rows into this aggregate with a handful of
field-copying mappers. It also computes the `SettlementResult`, which holds
one detail per participant:

- the floored share of every item that participant benefits from;
- their expenditures, which are the sum of those shares;
- their payments, which are the floor of everything they paid;
- their differences, which are expenditures minus payments.

The surplus is the sum of all differences.

This project models that file:

- `wrappers.dfy`: the `Option` type that stands for Kotlin's nullable references.
- `model.dfy`: the domain values (`Participant`, `Currency`, `Item`,
  `Settlement`, `SettlementListItem`, `SettlementResultDetail`,
  `SettlementResult`). They are datatypes, so equality is structural, as it
  is for Kotlin data classes. Participant membership and payer matching
  therefore compare id and name.
- `entity.dfy`: the storage rows the mappers read.
- `model_mapping.dfy`: the mappers and the calculator. The calculator is
  written as the same filter, map and sum pipeline as the Kotlin.
- `settlement_result_properties.dfy`: properties of the calculator. These
  are the list shape, filtering in order, the empty-beneficiary and
  null-payer cases, flooring once, a null currency acting as rate 1.0, and
  the surplus identity. The file also holds round trips for the mappers.
- `surplus_bound.dfy`: under well-formedness conditions, the surplus is at
  most 0. For a settlement with at least one item, it is also greater than
  minus the number of beneficiary slots.
- `model_mapping_fixtures.dfy`: the unit-test fixture (surplus −2), plus
  small concrete scenarios for each edge case.

Money is exact `real`, and `.Floor` rounds toward −∞ like Kotlin's `floor`.
Integer results are unbounded `int`. The model does not assume that a rate
or a quantity is positive, because the app never checks either.

Three behaviours of the code run against what a reader might expect, and
the model follows the code in each:

- **Sign of `differences`.** `differences` is expenditures minus payments
  (ModelMapping.kt:103). A positive value therefore means the participant
  still owes money, not that they are owed it. For one item of 100 paid by P1
  and shared by P1 and P2, P1 ends at −50 and P2 at +50 (`SplitBetweenTwo`).
- **Surplus bound.** The surplus is not bounded by one unit per item. The
  bound that holds is one unit per beneficiary slot (`SurplusAboveMinusSlots`):
  one item of 2 shared by three gives a surplus of −2 (`SurplusBeyondOnePerItem`).
  The other bound, that the surplus is never positive (`SurplusNonPositive`),
  needs every item to have a payer among the participants: an unpaid item
  can make the surplus positive (`NobodyPaid`).
- **Items without beneficiaries.** An item with an empty beneficiary list is
  still credited to its payer (`NobodyBenefits`).

## Model

| member | source | states |
|---|---|---|
| ModelMapping.ToCurrency | app/src/main/java/net/rokoucha/superseisan/data/ModelMapping.kt:19-25 | id, symbol and rate are copied unchanged |
| ModelMapping.ToItem | app/src/main/java/net/rokoucha/superseisan/data/ModelMapping.kt:27-42 | id, name, price and quantity are copied; the payer is the given non-null participant; currency and beneficiaries are passed through |
| ModelMapping.ToParticipant | app/src/main/java/net/rokoucha/superseisan/data/ModelMapping.kt:44-49 | id and name are copied; the settlement id is dropped |
| ModelMapping.ToSettlement | app/src/main/java/net/rokoucha/superseisan/data/ModelMapping.kt:51-66 | id, name and both timestamps come from the row; items, participants and currencies are the given lists |
| ModelMapping.ToParticipants | app/src/main/java/net/rokoucha/superseisan/data/ModelMapping.kt:74 | mapping the participant rows keeps length and order, and element k carries row k's id and name |
| ModelMapping.ToSettlementListItem | app/src/main/java/net/rokoucha/superseisan/data/ModelMapping.kt:68-77 | id, name and last-accessed time come from the settlement row; participant k is row k's (id, name), with the same count |
| SettlementResultProperties.ToParticipantsRoundTrip | app/src/main/java/net/rokoucha/superseisan/data/ModelMapping.kt:74 | storing participants as rows of any settlement and mapping them back gives the same list |
| SettlementResultProperties.SettlementListItemRoundTrip | app/src/main/java/net/rokoucha/superseisan/data/ModelMapping.kt:68-77 | a list item built from a settlement row and stored participant rows has exactly those participants, in order |
| SettlementResultProperties.CurrencyRoundTrip | app/src/main/java/net/rokoucha/superseisan/data/ModelMapping.kt:19-25 | a currency stored as a row and mapped back is the same currency |
| ModelMapping.ShareOf | app/src/main/java/net/rokoucha/superseisan/data/ModelMapping.kt:87-89 | the share is the largest integer whose product with the beneficiary count does not exceed price × rate × quantity |
| ModelMapping.BenefitedItems | app/src/main/java/net/rokoucha/superseisan/data/ModelMapping.kt:85 | the filter keeps only settlement items the participant benefits from, and never grows the list |
| SettlementResultProperties.BenefitedItemsMembership | app/src/main/java/net/rokoucha/superseisan/data/ModelMapping.kt:85 | an item survives the filter if and only if it is in the settlement and the participant is among its beneficiaries |
| SettlementResultProperties.BenefitedItemsAppend | app/src/main/java/net/rokoucha/superseisan/data/ModelMapping.kt:85 | filtering a concatenation is concatenating the filtered parts, so settlement order is kept |
| ModelMapping.ShareEntries | app/src/main/java/net/rokoucha/superseisan/data/ModelMapping.kt:86-90 | one (name, share) entry per kept item, in order; only items with beneficiaries can reach the division |
| SettlementResultProperties.ShareEntriesAppend | app/src/main/java/net/rokoucha/superseisan/data/ModelMapping.kt:86-90 | mapping a concatenation is concatenating the mapped parts |
| SettlementResultProperties.SumSharesAppend | app/src/main/java/net/rokoucha/superseisan/data/ModelMapping.kt:93 | the sum of shares splits over concatenation |
| ModelMapping.PaidItems | app/src/main/java/net/rokoucha/superseisan/data/ModelMapping.kt:98 | the filter keeps only settlement items whose payer is exactly this participant |
| SettlementResultProperties.PaidItemsAppend | app/src/main/java/net/rokoucha/superseisan/data/ModelMapping.kt:98 | filtering by payer splits over concatenation |
| SettlementResultProperties.SumCostsAppend | app/src/main/java/net/rokoucha/superseisan/data/ModelMapping.kt:99 | the unfloored paid total splits over concatenation |
| SettlementResultProperties.EntriesCons | app/src/main/java/net/rokoucha/superseisan/data/ModelMapping.kt:84-90 | the first item adds its (name, share) entry in front exactly when the participant benefits from it |
| SettlementResultProperties.ExpendituresCons | app/src/main/java/net/rokoucha/superseisan/data/ModelMapping.kt:93 | the first item adds its share to expenditures exactly when the participant benefits from it |
| SettlementResultProperties.PaidTotalCons | app/src/main/java/net/rokoucha/superseisan/data/ModelMapping.kt:96-100 | the first item adds its full cost to the unfloored paid total exactly when its payer is the participant |
| ModelMapping.Details | app/src/main/java/net/rokoucha/superseisan/data/ModelMapping.kt:82-112 | one detail per participant, in participant order, each computed for that participant |
| ModelMapping.ToSettlementResult | app/src/main/java/net/rokoucha/superseisan/data/ModelMapping.kt:79-121 | one detail per participant carrying that participant; expenditures are the exact sum of its entries; payments are the floor of the real total it paid; differences are expenditures minus payments; surplus is the sum of differences |
| SettlementResultProperties.DetailItemsAreBenefitedShares | app/src/main/java/net/rokoucha/superseisan/data/ModelMapping.kt:84-90 | a participant's entries are exactly (name, share) of the settlement items they benefit from, in both directions |
| SettlementResultProperties.BenefitedItemsWithout | app/src/main/java/net/rokoucha/superseisan/data/ModelMapping.kt:85 | removing an item with no beneficiaries does not change anyone's filtered list |
| SettlementResultProperties.EmptyBeneficiaryItemIsSkipped | app/src/main/java/net/rokoucha/superseisan/data/ModelMapping.kt:85-93 | an item with no beneficiaries changes no participant's entries or expenditures |
| SettlementResultProperties.PaidItemsWithout | app/src/main/java/net/rokoucha/superseisan/data/ModelMapping.kt:98 | removing an item another participant paid does not change this participant's paid list |
| SettlementResultProperties.ForeignPayerCountsForNobody | app/src/main/java/net/rokoucha/superseisan/data/ModelMapping.kt:96-100 | an item with a null payer, or a payer not among the participants, changes nobody's payments |
| SettlementResultProperties.NothingPaidMeansZeroPayments | app/src/main/java/net/rokoucha/superseisan/data/ModelMapping.kt:96-100 | a participant who paid for no item has payments 0 |
| SettlementResultProperties.FloorSuperadditive | app/src/main/java/net/rokoucha/superseisan/data/ModelMapping.kt:96 | the floor of a sum is at least the sum of the floors and at most one more |
| SettlementResultProperties.FloorOnceBounds | app/src/main/java/net/rokoucha/superseisan/data/ModelMapping.kt:96-100 | flooring the total is at least the sum of per-item floors and at most that plus one less than the item count |
| SettlementResultProperties.PaymentsFlooredOnce | app/src/main/java/net/rokoucha/superseisan/data/ModelMapping.kt:96-100 | a participant's payments lie between the sum of the per-item floors of what they paid and that sum plus one less than the number of items they paid |
| SettlementResultProperties.SameChargesSameEntries | app/src/main/java/net/rokoucha/superseisan/data/ModelMapping.kt:84-90 | items that agree on name, beneficiaries and cost give the same entries |
| SettlementResultProperties.SameChargesSamePaid | app/src/main/java/net/rokoucha/superseisan/data/ModelMapping.kt:96-100 | items that agree on payer and cost give the same paid total |
| SettlementResultProperties.SameChargesSameDetail | app/src/main/java/net/rokoucha/superseisan/data/ModelMapping.kt:82-112 | the detail depends on the items only through their names, payers, beneficiaries and costs |
| SettlementResultProperties.NullCurrencyIsRateOne | app/src/main/java/net/rokoucha/superseisan/data/ModelMapping.kt:88-99 | giving an item without a currency a currency of rate 1.0 leaves the whole result unchanged |
| SettlementResultProperties.SurplusIsExpendituresMinusPayments | app/src/main/java/net/rokoucha/superseisan/data/ModelMapping.kt:114-115 | the surplus is the total of all expenditures minus the total of all payments |
| SurplusBound.OccursOnce | app/src/main/java/net/rokoucha/superseisan/data/ModelMapping.kt:85 | in a list without repeats, a participant occurs once if present and otherwise not at all |
| SurplusBound.CountInAll | app/src/main/java/net/rokoucha/superseisan/data/ModelMapping.kt:82-85 | with distinct participants and distinct beneficiaries drawn from them, every beneficiary is matched by exactly one participant |
| SurplusBound.SumExpendituresCons | app/src/main/java/net/rokoucha/superseisan/data/ModelMapping.kt:82-93 | across all participants, an item contributes its share once per participant who benefits from it |
| SurplusBound.SumPaidCons | app/src/main/java/net/rokoucha/superseisan/data/ModelMapping.kt:82-100 | across distinct participants, an item's full cost is credited once if its payer is a participant, and otherwise not at all |
| SurplusBound.SumPaymentsCons | app/src/main/java/net/rokoucha/superseisan/data/ModelMapping.kt:82-100 | across distinct participants, total payments grow by at least the floor of an item's cost when its payer is a participant |
| SurplusBound.SumPaymentsBelowSumPaid | app/src/main/java/net/rokoucha/superseisan/data/ModelMapping.kt:96-100 | the floored payments never exceed the exact amounts paid |
| SurplusBound.SharesBelowFloor | app/src/main/java/net/rokoucha/superseisan/data/ModelMapping.kt:87-89 | the shares of one item add up to at most its floored cost, and to more than its cost minus the beneficiary count |
| SurplusBound.ExpendituresStep | app/src/main/java/net/rokoucha/superseisan/data/ModelMapping.kt:82-93 | with distinct beneficiaries among distinct participants, an item adds exactly share × beneficiary count to total expenditures |
| SurplusBound.ExpendituresBelowItemFloors | app/src/main/java/net/rokoucha/superseisan/data/ModelMapping.kt:82-93 | total expenditures never exceed the sum of the items' floored costs |
| SurplusBound.ExpendituresAboveCosts | app/src/main/java/net/rokoucha/superseisan/data/ModelMapping.kt:82-93 | for a non-empty item list, total expenditures exceed the total cost minus the number of beneficiary slots |
| SurplusBound.PaymentsBounds | app/src/main/java/net/rokoucha/superseisan/data/ModelMapping.kt:82-100 | when every payer is a participant, total payments are at least the sum of floored item costs, and the exact amounts paid add up to the total cost |
| SettlementResultProperties.SumDifferencesOfDetails | app/src/main/java/net/rokoucha/superseisan/data/ModelMapping.kt:103-115 | the sum of the details' differences is total expenditures minus total payments |
| SurplusBound.SurplusNonPositive | app/src/main/java/net/rokoucha/superseisan/data/ModelMapping.kt:114-115 | a balanced settlement never has a positive surplus. Balanced means distinct participants, every payer among them, and non-empty distinct beneficiary lists drawn from them |
| SurplusBound.SurplusAboveMinusSlots | app/src/main/java/net/rokoucha/superseisan/data/ModelMapping.kt:114-115 | a balanced settlement with at least one item has a surplus above minus its number of beneficiary slots |
| ModelMappingFixtures.FixtureParts | app/src/test/java/net/rokoucha/superseisan/data/ModelMappingTest.kt:168-211 | in the test fixture the shares are 66, 10000 and 250, and the costs paid are 200, 30000 and 500 |
| ModelMappingFixtures.FixtureDetailP1 | app/src/test/java/net/rokoucha/superseisan/data/ModelMappingTest.kt:216-224 | participant1: expenditures 10066, payments 200, differences 9866, entries item1 and item2 |
| ModelMappingFixtures.FixtureDetailP2 | app/src/test/java/net/rokoucha/superseisan/data/ModelMappingTest.kt:226-235 | participant2: expenditures 10316, payments 30000, differences −19684, entries item1, item2 and item3 |
| ModelMappingFixtures.FixtureDetailP3 | app/src/test/java/net/rokoucha/superseisan/data/ModelMappingTest.kt:237-246 | participant3: expenditures 10316, payments 500, differences 9816, entries item1, item2 and item3 |
| ModelMappingFixtures.FixtureResult | app/src/test/java/net/rokoucha/superseisan/data/ModelMappingTest.kt:168-252 | for any three distinct participants and any currency of rate 150, the fixture's result is exactly the expected one, with surplus −2 |
| ModelMappingFixtures.FixtureIsBalanced | app/src/test/java/net/rokoucha/superseisan/data/ModelMappingTest.kt:168-211 | the fixture meets every condition of the surplus bound |
| ModelMappingFixtures.SplitBetweenTwo | app/src/main/java/net/rokoucha/superseisan/data/ModelMapping.kt:102-103 | one item of 100 paid by P1 and shared with P2 gives P1 −50, P2 +50 and surplus 0 |
| ModelMappingFixtures.ForeignCurrency | app/src/main/java/net/rokoucha/superseisan/data/ModelMapping.kt:88-99 | a price of 10 at rate 150 gives an expenditure and a payment of 1500 |
| ModelMappingFixtures.NobodyBenefits | app/src/main/java/net/rokoucha/superseisan/data/ModelMapping.kt:85-98 | an item with no beneficiaries is listed for nobody, but its payer is still credited, so the surplus is −100 |
| ModelMappingFixtures.NobodyPaid | app/src/main/java/net/rokoucha/superseisan/data/ModelMapping.kt:98 | an item with no payer is credited to nobody, so the surplus is +100 |
| ModelMappingFixtures.FlooredOnceVersusPerShare | app/src/main/java/net/rokoucha/superseisan/data/ModelMapping.kt:87-100 | two items of 0.5 give shares of 0 each but a payment of 1, because the payment is floored once on the total |
| ModelMappingFixtures.SurplusBeyondOnePerItem | app/src/main/java/net/rokoucha/superseisan/data/ModelMapping.kt:87-115 | one item of 2 paid by P1 and shared by three gives shares of 0, a payment of 2 and a surplus of −2, so the surplus is not bounded by one unit per item |

## Left out

- IEEE-754 doubles: rounding of `price * rate * quantity / n`, NaN, infinities and the saturation of `Double.toInt()` are not modelled; amounts are exact reals.
- Kotlin `Int` overflow in the sums of shares and differences is not modelled; sums are unbounded integers.
- `OffsetDateTime` is an opaque `Timestamp` value that is only copied; its parsing and printing (Converters.kt) are not modelled.
- The Kotlin declarations of `Currency`, `Participant` and `SettlementResult` are not part of this model's source; the datatypes of the same names in model.dfy take their fields from the constructor calls in ModelMapping.kt and its test (`Currency(id, symbol, rate)`, `Participant(id, name)`, `SettlementResult(surplus, details)`).
- The repository, its coroutine streams and the place where it assembles a settlement from rows (SuperSeisanRepositoryImpl.kt) are not modelled; the mappers and the calculator are modelled on already resolved values.
- Room persistence (DAOs, database, foreign keys, row order) is not modelled. Of the conditions in `SurplusBound.Balanced`, only distinct participants and distinct beneficiaries follow from primary keys. A non-null payer and a non-empty beneficiary list hold when the item editor saves an item, but deleting a participant sets the payer of the items they paid to null and deletes their beneficiary rows. A stored settlement can therefore hold an item with no payer, which can give a positive surplus (`NobodyPaid`), or an item with no beneficiaries (`NobodyBenefits`). The conditions are preconditions of `SurplusBound.SurplusNonPositive` and `SurplusBound.SurplusAboveMinusSlots` only.
- The screens, view models, navigation and dependency injection, and the payment item editor's form rules, are not modelled.
- The unit-test fixture takes the participants and the currency, which the test creates with random UUIDs, as parameters, and assumes that the three participants differ and that the currency's rate is 150. The item ids and the settlement id and name are fixed literals, and its timestamps are fixed, because the calculator never reads any of them.

=== FILE: entity.dfy ===
/**
 * The rows the storage layer stores (package `data.entity`). Every row carries
 * the id of the settlement that owns it; items refer to their payer and
 * currency by id, and either reference may be absent.
 */
module Entity {
  import opened Wrappers
  import Model

  datatype Participant = Participant(id: string, name: string, settlementId: string)

  datatype Currency = Currency(id: string, symbol: string, rate: real, settlementId: string)

  datatype Item = Item(
    id: string,
    name: string,
    price: real,
    quantity: int,
    settlementId: string,
    payerId: Option<string>,
    currencyId: Option<string>)

  datatype Settlement = Settlement(
    id: string,
    name: string,
    updatedAt: Model.Timestamp,
    lastAccessedAt: Model.Timestamp)

  /** A settlement row joined with the participant rows that belong to it. */
  datatype SettlementWithParticipants = SettlementWithParticipants(
    settlement: Settlement,
    participants: seq<Participant>)
}

=== FILE: model.dfy ===
/**
 * The in-memory settlement aggregate (package `data.model`): immutable values
 * handed from the storage layer to the calculator and from the calculator to
 * the screens. Kotlin data classes compare structurally, and so do these
 * datatypes: two participants are equal exactly when their id and name agree.
 */
module Model {
  import opened Wrappers

  /** An `OffsetDateTime`, kept as its ISO-8601 text; nothing here inspects it. */
  datatype Timestamp = Timestamp(text: string)

  datatype Participant = Participant(id: string, name: string)

  /** `rate` is the number of native units per one unit of this currency. */
  datatype Currency = Currency(id: string, symbol: string, rate: real)

  /**
   * A purchase. `price` is in the unit of `currency`, or in the native unit
   * when `currency` is absent; neither `quantity` nor the currency's rate is
   * validated, so both may be zero or negative.
   */
  datatype Item = Item(
    id: string,
    name: string,
    price: real,
    quantity: int,
    payer: Option<Participant>,
    currency: Option<Currency>,
    benefited: seq<Participant>)

  datatype Settlement = Settlement(
    id: string,
    name: string,
    items: seq<Item>,
    participants: seq<Participant>,
    currencies: seq<Currency>,
    updatedAt: Timestamp,
    lastAccessedAt: Timestamp)

  /** A row of the settlement list on the landing screen. */
  datatype SettlementListItem = SettlementListItem(
    id: string,
    name: string,
    participants: seq<Participant>,
    lastAccessedAt: Timestamp)

  /** One participant's line of the result; `items` pairs an item's name with that participant's share. */
  datatype SettlementResultDetail = SettlementResultDetail(
    participant: Participant,
    expenditures: int,
    payments: int,
    differences: int,
    items: seq<(string, int)>)

  datatype SettlementResult = SettlementResult(surplus: int, details: seq<SettlementResultDetail>)
}

=== FILE: model_mapping.dfy ===
/**
 * `ModelMapping`: the field-copying mappers from storage rows to the
 * aggregate, and the settlement calculator `ToSettlementResult`.
 *
 * Amounts are exact reals and sums are unbounded integers: the IEEE-754
 * rounding of the Kotlin `Double` arithmetic and the 32-bit range of `Int`
 * are not modelled.
 */
module ModelMapping {
  import opened Wrappers
  import opened Model
  import Entity

  // ---------------------------------------------------------------------------
  // Field-copying mappers
  // ---------------------------------------------------------------------------

  function ToCurrency(e: Entity.Currency): (r: Currency)
    ensures r.id == e.id && r.symbol == e.symbol && r.rate == e.rate
  {
    Currency(e.id, e.symbol, e.rate)
  }

  /** The payer is passed in already resolved and is never null here, unlike `Item.payer`. */
  function ToItem(e: Entity.Item, payer: Participant, currency: Option<Currency>, benefited: seq<Participant>): (r: Item)
    ensures r.id == e.id && r.name == e.name && r.price == e.price && r.quantity == e.quantity
    ensures r.payer == Some(payer) && r.currency == currency && r.benefited == benefited
  {
    Item(e.id, e.name, e.price, e.quantity, Some(payer), currency, benefited)
  }

  function ToParticipant(e: Entity.Participant): (r: Participant)
    ensures r.id == e.id && r.name == e.name
  {
    Participant(e.id, e.name)
  }

  function ToSettlement(e: Entity.Settlement, items: seq<Item>, participants: seq<Participant>, currencies: seq<Currency>): (r: Settlement)
    ensures r.id == e.id && r.name == e.name
    ensures r.items == items && r.participants == participants && r.currencies == currencies
    ensures r.updatedAt == e.updatedAt && r.lastAccessedAt == e.lastAccessedAt
  {
    Settlement(e.id, e.name, items, participants, currencies, e.updatedAt, e.lastAccessedAt)
  }

  /** `participants.map { toParticipant(it) }`: same length, same order, element by element. */
  function ToParticipants(es: seq<Entity.Participant>): (r: seq<Participant>)
    ensures |r| == |es|
    ensures forall k | 0 <= k < |es| :: r[k].id == es[k].id && r[k].name == es[k].name
  {
    if es == [] then [] else [ToParticipant(es[0])] + ToParticipants(es[1..])
  }

  function ToSettlementListItem(sp: Entity.SettlementWithParticipants): (r: SettlementListItem)
    ensures r.id == sp.settlement.id && r.name == sp.settlement.name
    ensures r.lastAccessedAt == sp.settlement.lastAccessedAt
    ensures |r.participants| == |sp.participants|
    ensures forall k | 0 <= k < |sp.participants| ::
      r.participants[k] == Participant(sp.participants[k].id, sp.participants[k].name)
  {
    SettlementListItem(sp.settlement.id, sp.settlement.name, ToParticipants(sp.participants), sp.settlement.lastAccessedAt)
  }

  // ---------------------------------------------------------------------------
  // Settlement calculator
  // ---------------------------------------------------------------------------

  /** `it.currency?.rate ?: 1.0`: an item without a currency is in the native unit. */
  function RateOf(item: Item): real
  {
    match item.currency
    case None => 1.0
    case Some(c) => c.rate
  }

  /** `price * rate * quantity`: what the item cost, in the native unit. */
  function CostOf(item: Item): real
  {
    item.price * RateOf(item) * (item.quantity as real)
  }

  /**
   * One beneficiary's share of an item: its cost divided evenly among its
   * beneficiaries and floored, so that `r` is the largest integer whose
   * `|benefited|`-fold does not exceed the cost.
   */
  function ShareOf(item: Item): (r: int)
    requires |item.benefited| > 0
    ensures (r as real) * (|item.benefited| as real) <= CostOf(item)
    ensures CostOf(item) < ((r + 1) as real) * (|item.benefited| as real)
  {
    var n := |item.benefited| as real;
    var q := CostOf(item) / n;
    var f := q.Floor;
    assert q * n == CostOf(item);
    assert (f as real) * n <= q * n && q * n < ((f + 1) as real) * n by {
      assert (f as real) <= q < (f + 1) as real;
    }
    assert CostOf(item) < ((f + 1) as real) * (|item.benefited| as real);
    f
  }

  /** `filter { participant in it.benefited }`: the items `p` benefits from, in settlement order. */
  function BenefitedItems(items: seq<Item>, p: Participant): (r: seq<Item>)
    ensures |r| <= |items|
    ensures forall i | i in r :: i in items && p in i.benefited
  {
    if items == [] then []
    else (if p in items[0].benefited then [items[0]] else []) + BenefitedItems(items[1..], p)
  }

  /**
   * `map { it.name to floor(...).toInt() }`. Its precondition is why the
   * division never sees an empty beneficiary list: the filter runs first.
   */
  function ShareEntries(items: seq<Item>): (r: seq<(string, int)>)
    requires forall i | i in items :: |i.benefited| > 0
    ensures |r| == |items|
    ensures forall k | 0 <= k < |items| :: r[k] == (items[k].name, ShareOf(items[k]))
  {
    if items == [] then [] else [(items[0].name, ShareOf(items[0]))] + ShareEntries(items[1..])
  }

  /** `sumOf { it.second }`. */
  function SumShares(entries: seq<(string, int)>): int
  {
    if entries == [] then 0 else entries[0].1 + SumShares(entries[1..])
  }

  /** `filter { it.payer == participant }`: a null payer matches nobody. */
  function PaidItems(items: seq<Item>, p: Participant): (r: seq<Item>)
    ensures |r| <= |items|
    ensures forall i | i in r :: i in items && i.payer == Some(p)
  {
    if items == [] then []
    else (if items[0].payer == Some(p) then [items[0]] else []) + PaidItems(items[1..], p)
  }

  /** `sumOf { price * rate * quantity }`, exact and not yet floored. */
  function SumCosts(items: seq<Item>): real
  {
    if items == [] then 0.0 else CostOf(items[0]) + SumCosts(items[1..])
  }

  /** The body of the lambda mapped over the participants. */
  function DetailOf(items: seq<Item>, p: Participant): SettlementResultDetail
  {
    var entries := ShareEntries(BenefitedItems(items, p));
    var expenditures := SumShares(entries);
    var payments := SumCosts(PaidItems(items, p)).Floor;
    SettlementResultDetail(p, expenditures, payments, expenditures - payments, entries)
  }

  /** `participants.map { ... }`. */
  function Details(items: seq<Item>, ps: seq<Participant>): (r: seq<SettlementResultDetail>)
    ensures |r| == |ps|
    ensures forall k | 0 <= k < |ps| :: r[k] == DetailOf(items, ps[k])
  {
    if ps == [] then [] else [DetailOf(items, ps[0])] + Details(items, ps[1..])
  }

  /** `details.sumOf { it.differences }`. */
  function SumDifferences(details: seq<SettlementResultDetail>): int
  {
    if details == [] then 0 else details[0].differences + SumDifferences(details[1..])
  }

  /**
   * The settlement calculator. One detail per participant, in participant
   * order; each detail's expenditures are the exact sum of its floored
   * shares, its payments are the floor of everything it paid, its
   * differences are the one minus the other; the surplus adds up the
   * differences.
   */
  function ToSettlementResult(s: Settlement): (r: SettlementResult)
    ensures |r.details| == |s.participants|
    ensures forall k | 0 <= k < |r.details| ::
      && r.details[k].participant == s.participants[k]
      && r.details[k].expenditures == SumShares(r.details[k].items)
      && r.details[k].payments == SumCosts(PaidItems(s.items, s.participants[k])).Floor
      && r.details[k].differences == r.details[k].expenditures - r.details[k].payments
    ensures r.surplus == SumDifferences(r.details)
  {
    var details := Details(s.items, s.participants);
    SettlementResult(SumDifferences(details), details)
  }
}

=== FILE: model_mapping_fixtures.dfy ===
/**
 * Concrete settlements and the results the calculator gives for them: the
 * three-participant fixture of `ModelMappingTest`, two small scenarios, and
 * examples of the edge cases (an item without beneficiaries, an item without
 * a payer, per-item versus per-total flooring).
 */
module ModelMappingFixtures {
  import opened Wrappers
  import opened Model
  import opened ModelMapping
  import opened SettlementResultProperties
  import SurplusBound

  const P1 := Participant("p1", "participant1")
  const P2 := Participant("p2", "participant2")
  const P3 := Participant("p3", "participant3")
  const Usd := Currency("usd", "USD", 150.0)
  const Now := Timestamp("2024-01-01T00:00:00Z")

  function SettlementOf(items: seq<Item>, participants: seq<Participant>, currencies: seq<Currency>): Settlement
  {
    Settlement("s", "settlement", items, participants, currencies, Now, Now)
  }

  // Evaluation helpers: the calculator unfolded over short literal lists.

  function EntryFor(i: Item, p: Participant): seq<(string, int)>
  {
    if p in i.benefited then [(i.name, ShareOf(i))] else []
  }

  function PaidBy(i: Item, p: Participant): real
  {
    if i.payer == Some(p) then CostOf(i) else 0.0
  }

  lemma UnfoldOne(a: Item, p: Participant)
    ensures ShareEntries(BenefitedItems([a], p)) == EntryFor(a, p)
    ensures SumCosts(PaidItems([a], p)) == PaidBy(a, p)
  {
    assert [a] == [a] + [];
    EntriesCons(a, [], p);
    PaidTotalCons(a, [], p);
  }

  lemma UnfoldTwo(a: Item, b: Item, p: Participant)
    ensures ShareEntries(BenefitedItems([a, b], p)) == EntryFor(a, p) + EntryFor(b, p)
    ensures SumCosts(PaidItems([a, b], p)) == PaidBy(a, p) + PaidBy(b, p)
  {
    assert [a, b] == [a] + [b];
    UnfoldOne(b, p);
    EntriesCons(a, [b], p);
    PaidTotalCons(a, [b], p);
  }

  lemma UnfoldThree(a: Item, b: Item, c: Item, p: Participant)
    ensures ShareEntries(BenefitedItems([a, b, c], p)) == EntryFor(a, p) + EntryFor(b, p) + EntryFor(c, p)
    ensures SumCosts(PaidItems([a, b, c], p)) == PaidBy(a, p) + PaidBy(b, p) + PaidBy(c, p)
  {
    assert [a, b, c] == [a] + [b, c];
    UnfoldTwo(b, c, p);
    EntriesCons(a, [b, c], p);
    PaidTotalCons(a, [b, c], p);
  }

  lemma SumSharesOf(es: seq<(string, int)>)
    requires |es| <= 3
    ensures SumShares(es) == if es == [] then 0 else if |es| == 1 then es[0].1
      else if |es| == 2 then es[0].1 + es[1].1 else es[0].1 + es[1].1 + es[2].1
  {
    if es != [] {
      if |es| >= 2 {
        assert SumShares(es[1..][1..]) == if |es| == 2 then 0 else es[2].1;
      }
    }
  }

  /** The result, given the detail of each participant. */
  lemma ResultOf(s: Settlement, ds: seq<SettlementResultDetail>)
    requires |ds| == |s.participants| <= 3
    requires forall k | 0 <= k < |ds| :: DetailOf(s.items, s.participants[k]) == ds[k]
    ensures ToSettlementResult(s) == SettlementResult(
      if ds == [] then 0 else if |ds| == 1 then ds[0].differences
      else if |ds| == 2 then ds[0].differences + ds[1].differences
      else ds[0].differences + ds[1].differences + ds[2].differences, ds)
  {
    assert Details(s.items, s.participants) == ds;
    if ds != [] {
      assert SumDifferences(ds) == ds[0].differences + SumDifferences(ds[1..]);
      if |ds| >= 2 {
        assert SumDifferences(ds[1..]) == ds[1].differences + SumDifferences(ds[2..]);
        if |ds| == 3 {
          assert SumDifferences(ds[2..]) == ds[2].differences + SumDifferences(ds[3..]);
        }
      }
    }
  }

  lemma ResultOfThree(s: Settlement, d1: SettlementResultDetail, d2: SettlementResultDetail, d3: SettlementResultDetail)
    requires |s.participants| == 3
    requires DetailOf(s.items, s.participants[0]) == d1
    requires DetailOf(s.items, s.participants[1]) == d2
    requires DetailOf(s.items, s.participants[2]) == d3
    ensures ToSettlementResult(s) == SettlementResult(d1.differences + d2.differences + d3.differences, [d1, d2, d3])
  {
    ResultOf(s, [d1, d2, d3]);
  }

  /**
   * The settlement of `toSettlementResult_returnsSettlementResultModel`. The
   * test draws the ids at random, so the participants and the currency are
   * parameters: any three distinct participants and any currency of rate 150.
   */
  function Fixture(p1: Participant, p2: Participant, p3: Participant, usd: Currency): Settlement
  {
    SettlementOf(
      [ Item("i1", "item1", 100.0, 2, Some(p1), None, [p1, p2, p3]),
        Item("i2", "item2", 200.0, 1, Some(p2), Some(usd), [p1, p2, p3]),
        Item("i3", "item3", 500.0, 1, Some(p3), None, [p2, p3]) ],
      [p1, p2, p3],
      [usd])
  }

  ghost predicate FixtureArguments(p1: Participant, p2: Participant, p3: Participant, usd: Currency)
  {
    p1 != p2 && p1 != p3 && p2 != p3 && usd.rate == 150.0
  }

  /** What each fixture item gives each participant: its share entry and what it paid. */
  lemma FixtureParts(p1: Participant, p2: Participant, p3: Participant, usd: Currency)
    requires FixtureArguments(p1, p2, p3, usd)
    ensures var items := Fixture(p1, p2, p3, usd).items;
      && EntryFor(items[0], p1) == [("item1", 66)] && EntryFor(items[1], p1) == [("item2", 10000)] && EntryFor(items[2], p1) == []
      && EntryFor(items[0], p2) == [("item1", 66)] && EntryFor(items[1], p2) == [("item2", 10000)] && EntryFor(items[2], p2) == [("item3", 250)]
      && EntryFor(items[0], p3) == [("item1", 66)] && EntryFor(items[1], p3) == [("item2", 10000)] && EntryFor(items[2], p3) == [("item3", 250)]
      && PaidBy(items[0], p1) == 200.0 && PaidBy(items[1], p1) == 0.0 && PaidBy(items[2], p1) == 0.0
      && PaidBy(items[0], p2) == 0.0 && PaidBy(items[1], p2) == 30000.0 && PaidBy(items[2], p2) == 0.0
      && PaidBy(items[0], p3) == 0.0 && PaidBy(items[1], p3) == 0.0 && PaidBy(items[2], p3) == 500.0
  {
    var items := Fixture(p1, p2, p3, usd).items;
    assert CostOf(items[0]) == 200.0;
    assert CostOf(items[1]) == 30000.0;
    assert CostOf(items[2]) == 500.0;
    assert ShareOf(items[0]) == 66 by {
      assert 66.0 * 3.0 <= 200.0 < 67.0 * 3.0;
    }
  }

  lemma FixtureDetailOf(items: seq<Item>, p: Participant, e: seq<(string, int)>, paid: seq<real>)
    requires |items| == 3 && |e| <= 3 && |paid| == 3
    requires EntryFor(items[0], p) + EntryFor(items[1], p) + EntryFor(items[2], p) == e
    requires PaidBy(items[0], p) == paid[0] && PaidBy(items[1], p) == paid[1] && PaidBy(items[2], p) == paid[2]
    ensures var payments := (paid[0] + paid[1] + paid[2]).Floor;
      DetailOf(items, p) == SettlementResultDetail(p, SumShares(e), payments, SumShares(e) - payments, e)
  {
    assert items == [items[0], items[1], items[2]];
    UnfoldThree(items[0], items[1], items[2], p);
  }

  lemma FixtureDetailP1(p1: Participant, p2: Participant, p3: Participant, usd: Currency)
    requires FixtureArguments(p1, p2, p3, usd)
    ensures DetailOf(Fixture(p1, p2, p3, usd).items, p1)
         == SettlementResultDetail(p1, 10066, 200, 9866, [("item1", 66), ("item2", 10000)])
  {
    FixtureParts(p1, p2, p3, usd);
    var e := [("item1", 66), ("item2", 10000)];
    assert [("item1", 66)] + [("item2", 10000)] + [] == e;
    SumSharesOf(e);
    FixtureDetailOf(Fixture(p1, p2, p3, usd).items, p1, e, [200.0, 0.0, 0.0]);
  }

  lemma FixtureDetailP2(p1: Participant, p2: Participant, p3: Participant, usd: Currency)
    requires FixtureArguments(p1, p2, p3, usd)
    ensures DetailOf(Fixture(p1, p2, p3, usd).items, p2)
         == SettlementResultDetail(p2, 10316, 30000, -19684, [("item1", 66), ("item2", 10000), ("item3", 250)])
  {
    FixtureParts(p1, p2, p3, usd);
    var e := [("item1", 66), ("item2", 10000), ("item3", 250)];
    assert [("item1", 66)] + [("item2", 10000)] + [("item3", 250)] == e;
    SumSharesOf(e);
    FixtureDetailOf(Fixture(p1, p2, p3, usd).items, p2, e, [0.0, 30000.0, 0.0]);
  }

  lemma FixtureDetailP3(p1: Participant, p2: Participant, p3: Participant, usd: Currency)
    requires FixtureArguments(p1, p2, p3, usd)
    ensures DetailOf(Fixture(p1, p2, p3, usd).items, p3)
         == SettlementResultDetail(p3, 10316, 500, 9816, [("item1", 66), ("item2", 10000), ("item3", 250)])
  {
    FixtureParts(p1, p2, p3, usd);
    var e := [("item1", 66), ("item2", 10000), ("item3", 250)];
    assert [("item1", 66)] + [("item2", 10000)] + [("item3", 250)] == e;
    SumSharesOf(e);
    FixtureDetailOf(Fixture(p1, p2, p3, usd).items, p3, e, [0.0, 0.0, 500.0]);
  }

  /** The test's expected result: shares 66, 10000 and 250, surplus -2. */
  lemma FixtureResult(p1: Participant, p2: Participant, p3: Participant, usd: Currency)
    requires FixtureArguments(p1, p2, p3, usd)
    ensures ToSettlementResult(Fixture(p1, p2, p3, usd))
         == SettlementResult(-2, [
              SettlementResultDetail(p1, 10066, 200, 9866, [("item1", 66), ("item2", 10000)]),
              SettlementResultDetail(p2, 10316, 30000, -19684, [("item1", 66), ("item2", 10000), ("item3", 250)]),
              SettlementResultDetail(p3, 10316, 500, 9816, [("item1", 66), ("item2", 10000), ("item3", 250)])])
  {
    var s := Fixture(p1, p2, p3, usd);
    var d1 := SettlementResultDetail(p1, 10066, 200, 9866, [("item1", 66), ("item2", 10000)]);
    var d2 := SettlementResultDetail(p2, 10316, 30000, -19684, [("item1", 66), ("item2", 10000), ("item3", 250)]);
    var d3 := SettlementResultDetail(p3, 10316, 500, 9816, [("item1", 66), ("item2", 10000), ("item3", 250)]);
    assert DetailOf(s.items, s.participants[0]) == d1 by { FixtureDetailP1(p1, p2, p3, usd); }
    assert DetailOf(s.items, s.participants[1]) == d2 by { FixtureDetailP2(p1, p2, p3, usd); }
    assert DetailOf(s.items, s.participants[2]) == d3 by { FixtureDetailP3(p1, p2, p3, usd); }
    ResultOfThree(s, d1, d2, d3);
  }

  /** The fixture meets every condition of the surplus bound. */
  lemma FixtureIsBalanced(p1: Participant, p2: Participant, p3: Participant, usd: Currency)
    requires FixtureArguments(p1, p2, p3, usd)
    ensures SurplusBound.Balanced(Fixture(p1, p2, p3, usd))
  {
    var s := Fixture(p1, p2, p3, usd);
    assert [p3][1..] == [];
    assert SurplusBound.Distinct([p3]);
    assert [p2, p3][1..] == [p3];
    assert SurplusBound.Distinct([p2, p3]);
    assert s.participants[1..] == [p2, p3];
    assert SurplusBound.Distinct(s.participants);
    assert s.items[2].benefited[1..] == [p3];
    assert s.items[0].benefited == s.participants;
  }

  /**
   * One item of 100 paid by P1 and shared by P1 and P2. Differences are
   * expenditures minus payments, so P2, who paid nothing, ends at +50 and
   * P1 at -50.
   */
  lemma SplitBetweenTwo()
    ensures ToSettlementResult(SettlementOf([Item("i", "item", 100.0, 1, Some(P1), None, [P1, P2])], [P1, P2], []))
         == SettlementResult(0, [
              SettlementResultDetail(P1, 50, 100, -50, [("item", 50)]),
              SettlementResultDetail(P2, 50, 0, 50, [("item", 50)])])
  {
    var a := Item("i", "item", 100.0, 1, Some(P1), None, [P1, P2]);
    var s := SettlementOf([a], [P1, P2], []);
    assert ShareOf(a) == 50;
    UnfoldOne(a, P1);
    UnfoldOne(a, P2);
    ResultOf(s, [
      SettlementResultDetail(P1, 50, 100, -50, [("item", 50)]),
      SettlementResultDetail(P2, 50, 0, 50, [("item", 50)])]);
  }

  /** A price of 10 in a currency of rate 150 costs 1500 in the native unit. */
  lemma ForeignCurrency()
    ensures ToSettlementResult(SettlementOf([Item("i", "item", 10.0, 1, Some(P1), Some(Usd), [P1])], [P1], [Usd]))
         == SettlementResult(0, [SettlementResultDetail(P1, 1500, 1500, 0, [("item", 1500)])])
  {
    var a := Item("i", "item", 10.0, 1, Some(P1), Some(Usd), [P1]);
    assert CostOf(a) == 1500.0;
    assert ShareOf(a) == 1500;
    UnfoldOne(a, P1);
    ResultOf(SettlementOf([a], [P1], [Usd]), [SettlementResultDetail(P1, 1500, 1500, 0, [("item", 1500)])]);
  }

  /** An item nobody benefits from is listed for nobody, but its payer is still credited with it. */
  lemma NobodyBenefits()
    ensures ToSettlementResult(SettlementOf([Item("i", "item", 100.0, 1, Some(P1), None, [])], [P1, P2], []))
         == SettlementResult(-100, [
              SettlementResultDetail(P1, 0, 100, -100, []),
              SettlementResultDetail(P2, 0, 0, 0, [])])
  {
    var a := Item("i", "item", 100.0, 1, Some(P1), None, []);
    UnfoldOne(a, P1);
    UnfoldOne(a, P2);
    ResultOf(SettlementOf([a], [P1, P2], []), [
      SettlementResultDetail(P1, 0, 100, -100, []),
      SettlementResultDetail(P2, 0, 0, 0, [])]);
  }

  /** An item without a payer is owed to nobody: without that balance the surplus turns positive. */
  lemma NobodyPaid()
    ensures ToSettlementResult(SettlementOf([Item("i", "item", 100.0, 1, None, None, [P1])], [P1], []))
         == SettlementResult(100, [SettlementResultDetail(P1, 100, 0, 100, [("item", 100)])])
  {
    var a := Item("i", "item", 100.0, 1, None, None, [P1]);
    assert ShareOf(a) == 100;
    UnfoldOne(a, P1);
    ResultOf(SettlementOf([a], [P1], []), [SettlementResultDetail(P1, 100, 0, 100, [("item", 100)])]);
  }

  /**
   * Two items of 0.5 paid by P1: each share floors to 0, while the payment
   * is floored once, on 1.0, and gives 1.
   */
  lemma FlooredOnceVersusPerShare()
    ensures ToSettlementResult(SettlementOf(
              [ Item("a", "a", 0.5, 1, Some(P1), None, [P1]),
                Item("b", "b", 0.5, 1, Some(P1), None, [P1]) ], [P1], []))
         == SettlementResult(-1, [SettlementResultDetail(P1, 0, 1, -1, [("a", 0), ("b", 0)])])
  {
    var a := Item("a", "a", 0.5, 1, Some(P1), None, [P1]);
    var b := Item("b", "b", 0.5, 1, Some(P1), None, [P1]);
    assert ShareOf(a) == 0 && ShareOf(b) == 0;
    UnfoldTwo(a, b, P1);
    SumSharesOf([("a", 0), ("b", 0)]);
    ResultOf(SettlementOf([a, b], [P1], []), [SettlementResultDetail(P1, 0, 1, -1, [("a", 0), ("b", 0)])]);
  }

  /**
   * One item of 2 paid by P1 and shared by three: every share floors to 0,
   * so a single item leaves a surplus of -2, beyond one unit per item.
   */
  lemma SurplusBeyondOnePerItem()
    ensures ToSettlementResult(SettlementOf([Item("i", "item", 2.0, 1, Some(P1), None, [P1, P2, P3])], [P1, P2, P3], []))
         == SettlementResult(-2, [
              SettlementResultDetail(P1, 0, 2, -2, [("item", 0)]),
              SettlementResultDetail(P2, 0, 0, 0, [("item", 0)]),
              SettlementResultDetail(P3, 0, 0, 0, [("item", 0)])])
  {
    var a := Item("i", "item", 2.0, 1, Some(P1), None, [P1, P2, P3]);
    var s := SettlementOf([a], [P1, P2, P3], []);
    assert ShareOf(a) == 0;
    var d1 := SettlementResultDetail(P1, 0, 2, -2, [("item", 0)]);
    var d2 := SettlementResultDetail(P2, 0, 0, 0, [("item", 0)]);
    var d3 := SettlementResultDetail(P3, 0, 0, 0, [("item", 0)]);
    assert DetailOf(s.items, s.participants[0]) == d1 by { UnfoldOne(a, P1); }
    assert DetailOf(s.items, s.participants[1]) == d2 by { UnfoldOne(a, P2); }
    assert DetailOf(s.items, s.participants[2]) == d3 by { UnfoldOne(a, P3); }
    ResultOfThree(s, d1, d2, d3);
  }
}

=== FILE: settlement_result_properties.dfy ===
/**
 * What `ModelMapping` promises, stated as lemmas over all inputs: the mappers
 * lose nothing, the filters keep exactly the right items in settlement order,
 * items without beneficiaries or without a participant as payer are
 * harmless, payments are floored once, a missing currency is a rate of 1.0,
 * and the surplus is what the differences add up to.
 */
module SettlementResultProperties {
  import opened Wrappers
  import opened Model
  import opened ModelMapping
  import Entity

  // ---------------------------------------------------------------------------
  // Mappers
  // ---------------------------------------------------------------------------

  /** The participant rows a settlement list query returns for `ps`, all owned by `settlementId`. */
  function ParticipantRows(ps: seq<Participant>, settlementId: string): (r: seq<Entity.Participant>)
    ensures |r| == |ps|
    ensures forall k | 0 <= k < |ps| :: r[k] == Entity.Participant(ps[k].id, ps[k].name, settlementId)
  {
    if ps == [] then [] else [Entity.Participant(ps[0].id, ps[0].name, settlementId)] + ParticipantRows(ps[1..], settlementId)
  }

  /** Reading back the rows written for `ps` gives `ps` itself: no participant lost, reordered or altered. */
  lemma {:induction false} ToParticipantsRoundTrip(ps: seq<Participant>, settlementId: string)
    ensures ToParticipants(ParticipantRows(ps, settlementId)) == ps
  {
    if ps != [] {
      ToParticipantsRoundTrip(ps[1..], settlementId);
      assert ParticipantRows(ps, settlementId)[1..] == ParticipantRows(ps[1..], settlementId);
    }
  }

  /** A settlement row with its participant rows maps to the list item holding the same values. */
  lemma SettlementListItemRoundTrip(e: Entity.Settlement, ps: seq<Participant>)
    ensures ToSettlementListItem(Entity.SettlementWithParticipants(e, ParticipantRows(ps, e.id)))
         == SettlementListItem(e.id, e.name, ps, e.lastAccessedAt)
  {
    ToParticipantsRoundTrip(ps, e.id);
  }

  /** Every currency survives being stored and read back. */
  lemma CurrencyRoundTrip(c: Currency, settlementId: string)
    ensures ToCurrency(Entity.Currency(c.id, c.symbol, c.rate, settlementId)) == c
  {
  }

  // ---------------------------------------------------------------------------
  // The filters and sums distribute over concatenation
  // ---------------------------------------------------------------------------

  /** Filtering by beneficiary keeps settlement order: it distributes over `+`. */
  lemma {:induction false} BenefitedItemsAppend(a: seq<Item>, b: seq<Item>, p: Participant)
    ensures BenefitedItems(a + b, p) == BenefitedItems(a, p) + BenefitedItems(b, p)
  {
    if a == [] {
      assert a + b == b;
    } else {
      assert (a + b)[0] == a[0];
      assert (a + b)[1..] == a[1..] + b;
      BenefitedItemsAppend(a[1..], b, p);
    }
  }

  /** Filtering by payer keeps settlement order: it distributes over `+`. */
  lemma {:induction false} PaidItemsAppend(a: seq<Item>, b: seq<Item>, p: Participant)
    ensures PaidItems(a + b, p) == PaidItems(a, p) + PaidItems(b, p)
  {
    if a == [] {
      assert a + b == b;
    } else {
      assert (a + b)[0] == a[0];
      assert (a + b)[1..] == a[1..] + b;
      PaidItemsAppend(a[1..], b, p);
    }
  }

  lemma {:induction false} ShareEntriesAppend(a: seq<Item>, b: seq<Item>)
    requires forall i | i in a :: |i.benefited| > 0
    requires forall i | i in b :: |i.benefited| > 0
    ensures ShareEntries(a + b) == ShareEntries(a) + ShareEntries(b)
  {
    if a == [] {
      assert a + b == b;
    } else {
      assert (a + b)[0] == a[0];
      assert (a + b)[1..] == a[1..] + b;
      ShareEntriesAppend(a[1..], b);
    }
  }

  lemma {:induction false} SumSharesAppend(a: seq<(string, int)>, b: seq<(string, int)>)
    ensures SumShares(a + b) == SumShares(a) + SumShares(b)
  {
    if a == [] {
      assert a + b == b;
    } else {
      assert (a + b)[0] == a[0];
      assert (a + b)[1..] == a[1..] + b;
      SumSharesAppend(a[1..], b);
    }
  }

  lemma {:induction false} SumCostsAppend(a: seq<Item>, b: seq<Item>)
    ensures SumCosts(a + b) == SumCosts(a) + SumCosts(b)
  {
    if a == [] {
      assert a + b == b;
    } else {
      assert (a + b)[0] == a[0];
      assert (a + b)[1..] == a[1..] + b;
      SumCostsAppend(a[1..], b);
    }
  }

  /** Taking one item off the front: `p`'s share entries gain that item's entry exactly when `p` benefits from it. */
  lemma EntriesCons(i: Item, rest: seq<Item>, p: Participant)
    ensures ShareEntries(BenefitedItems([i] + rest, p))
         == (if p in i.benefited then [(i.name, ShareOf(i))] else []) + ShareEntries(BenefitedItems(rest, p))
  {
    var items := [i] + rest;
    assert items[0] == i && items[1..] == rest;
    var head := if p in i.benefited then [i] else [];
    assert BenefitedItems(items, p) == head + BenefitedItems(rest, p);
    ShareEntriesAppend(head, BenefitedItems(rest, p));
  }

  /** Taking one item off the front: `p`'s expenditures gain its share exactly when `p` benefits from it. */
  lemma ExpendituresCons(i: Item, rest: seq<Item>, p: Participant)
    ensures DetailOf([i] + rest, p).expenditures
         == (if p in i.benefited then ShareOf(i) else 0) + DetailOf(rest, p).expenditures
  {
    EntriesCons(i, rest, p);
    var head := if p in i.benefited then [(i.name, ShareOf(i))] else [];
    SumSharesAppend(head, ShareEntries(BenefitedItems(rest, p)));
  }

  /** Taking one item off the front: what `p` paid grows by its cost exactly when `p` is its payer. */
  lemma PaidTotalCons(i: Item, rest: seq<Item>, p: Participant)
    ensures SumCosts(PaidItems([i] + rest, p))
         == (if i.payer == Some(p) then CostOf(i) else 0.0) + SumCosts(PaidItems(rest, p))
  {
    var items := [i] + rest;
    assert items[0] == i && items[1..] == rest;
    var head := if i.payer == Some(p) then [i] else [];
    assert PaidItems(items, p) == head + PaidItems(rest, p);
    SumCostsAppend(head, PaidItems(rest, p));
  }

  // ---------------------------------------------------------------------------
  // Which items a participant's detail lists
  // ---------------------------------------------------------------------------

  /** An item survives the beneficiary filter if and only if it is in the settlement and `p` benefits from it. */
  lemma {:induction false} BenefitedItemsMembership(items: seq<Item>, p: Participant, i: Item)
    ensures i in BenefitedItems(items, p) <==> i in items && p in i.benefited
  {
    if items != [] {
      BenefitedItemsMembership(items[1..], p, i);
      assert items == [items[0]] + items[1..];
    }
  }

  /**
   * A participant's detail lists an entry `(name, floored share)` for every
   * item that participant benefits from, and nothing else.
   */
  lemma DetailItemsAreBenefitedShares(s: Settlement, k: nat)
    requires k < |s.participants|
    ensures var d := ToSettlementResult(s).details[k];
      && (forall i | i in s.items && s.participants[k] in i.benefited :: (i.name, ShareOf(i)) in d.items)
      && (forall e | e in d.items :: exists i | i in s.items && s.participants[k] in i.benefited :: e == (i.name, ShareOf(i)))
  {
    var p := s.participants[k];
    var d := ToSettlementResult(s).details[k];
    var filtered := BenefitedItems(s.items, p);
    assert d.items == ShareEntries(filtered);
    forall i | i in s.items && p in i.benefited
      ensures (i.name, ShareOf(i)) in d.items
    {
      BenefitedItemsMembership(s.items, p, i);
      var m :| 0 <= m < |filtered| && filtered[m] == i;
      assert d.items[m] == (i.name, ShareOf(i));
    }
    forall e | e in d.items
      ensures exists i | i in s.items && p in i.benefited :: e == (i.name, ShareOf(i))
    {
      var m :| 0 <= m < |d.items| && d.items[m] == e;
      assert filtered[m] in filtered;
    }
  }

  /** A list is its prefix before `k`, the element at `k`, and its suffix after `k`, in that order. */
  lemma SplitAt(items: seq<Item>, k: nat)
    requires k < |items|
    ensures items == items[..k] + [items[k]] + items[k + 1..]
  {
  }

  /** An item nobody benefits from passes no beneficiary filter. */
  lemma BenefitedItemsSkip(before: seq<Item>, x: Item, after: seq<Item>, p: Participant)
    requires x.benefited == []
    ensures BenefitedItems(before + [x] + after, p) == BenefitedItems(before + after, p)
  {
    BenefitedItemsAppend(before + [x], after, p);
    BenefitedItemsAppend(before, [x], p);
    assert BenefitedItems([x], p) == [];
    BenefitedItemsAppend(before, after, p);
  }

  lemma BenefitedItemsWithout(items: seq<Item>, k: nat, p: Participant)
    requires k < |items| && items[k].benefited == []
    ensures BenefitedItems(items, p) == BenefitedItems(items[..k] + items[k + 1..], p)
  {
    SplitAt(items, k);
    BenefitedItemsSkip(items[..k], items[k], items[k + 1..], p);
  }

  /**
   * An item nobody benefits from changes no participant's item list or
   * expenditures: the settlement without it gives the same ones. (Its cost
   * still counts toward its payer's payments.)
   */
  lemma EmptyBeneficiaryItemIsSkipped(s: Settlement, k: nat, j: nat)
    requires k < |s.items| && s.items[k].benefited == []
    requires j < |s.participants|
    ensures var without := s.(items := s.items[..k] + s.items[k + 1..]);
      && ToSettlementResult(s).details[j].items == ToSettlementResult(without).details[j].items
      && ToSettlementResult(s).details[j].expenditures == ToSettlementResult(without).details[j].expenditures
  {
    BenefitedItemsWithout(s.items, k, s.participants[j]);
  }

  // ---------------------------------------------------------------------------
  // Payments
  // ---------------------------------------------------------------------------

  /** A participant who paid for nothing has payments of zero. */
  lemma NothingPaidMeansZeroPayments(s: Settlement, j: nat)
    requires j < |s.participants|
    requires forall i | i in s.items :: i.payer != Some(s.participants[j])
    ensures ToSettlementResult(s).details[j].payments == 0
  {
  }

  /** An item someone else paid for passes no payer filter for `p`. */
  lemma PaidItemsSkip(before: seq<Item>, x: Item, after: seq<Item>, p: Participant)
    requires x.payer != Some(p)
    ensures PaidItems(before + [x] + after, p) == PaidItems(before + after, p)
  {
    PaidItemsAppend(before + [x], after, p);
    PaidItemsAppend(before, [x], p);
    assert PaidItems([x], p) == [];
    PaidItemsAppend(before, after, p);
  }

  lemma PaidItemsWithout(items: seq<Item>, k: nat, p: Participant)
    requires k < |items| && items[k].payer != Some(p)
    ensures PaidItems(items, p) == PaidItems(items[..k] + items[k + 1..], p)
  {
    SplitAt(items, k);
    PaidItemsSkip(items[..k], items[k], items[k + 1..], p);
  }

  /**
   * An item whose payer is null, or is not one of the settlement's
   * participants, counts toward nobody's payments: removing it leaves every
   * detail's payments as they were.
   */
  lemma ForeignPayerCountsForNobody(s: Settlement, k: nat, j: nat)
    requires k < |s.items| && j < |s.participants|
    requires s.items[k].payer.None? || s.items[k].payer.value !in s.participants
    ensures ToSettlementResult(s).details[j].payments
         == ToSettlementResult(s.(items := s.items[..k] + s.items[k + 1..])).details[j].payments
  {
    assert s.participants[j] in s.participants;
    PaidItemsWithout(s.items, k, s.participants[j]);
  }

  /** What the items would come to if each were floored on its own, as the shares are. */
  function ItemFloors(items: seq<Item>): int
  {
    if items == [] then 0 else CostOf(items[0]).Floor + ItemFloors(items[1..])
  }

  lemma FloorSuperadditive(a: real, b: real)
    ensures a.Floor + b.Floor <= (a + b).Floor <= a.Floor + b.Floor + 1
  {
    assert (a.Floor + b.Floor) as real <= a + b;
    assert a + b < (a.Floor + b.Floor + 2) as real;
  }

  /**
   * Flooring the total once gives at least the sum of the per-item floors,
   * and exceeds it by less than one unit per item.
   */
  lemma {:induction false} FloorOnceBounds(items: seq<Item>)
    ensures ItemFloors(items) <= SumCosts(items).Floor
    ensures items != [] ==> SumCosts(items).Floor <= ItemFloors(items) + |items| - 1
  {
    if items != [] {
      FloorOnceBounds(items[1..]);
      FloorSuperadditive(CostOf(items[0]), SumCosts(items[1..]));
      if items[1..] == [] {
        assert SumCosts(items) == CostOf(items[0]) + 0.0;
      }
    }
  }

  /** A participant's payments are floored once, on the total: never below the sum of the per-item floors. */
  lemma PaymentsFlooredOnce(s: Settlement, j: nat)
    requires j < |s.participants|
    ensures var paid := PaidItems(s.items, s.participants[j]);
      && ItemFloors(paid) <= ToSettlementResult(s).details[j].payments
      && (paid != [] ==> ToSettlementResult(s).details[j].payments <= ItemFloors(paid) + |paid| - 1)
  {
    FloorOnceBounds(PaidItems(s.items, s.participants[j]));
  }

  // ---------------------------------------------------------------------------
  // A missing currency is the native unit
  // ---------------------------------------------------------------------------

  /** Two item lists the calculator cannot tell apart: same names, payers, beneficiaries and costs. */
  ghost predicate SameCharges(a: seq<Item>, b: seq<Item>)
  {
    && |a| == |b|
    && forall k | 0 <= k < |a| ::
      && a[k].name == b[k].name
      && a[k].payer == b[k].payer
      && a[k].benefited == b[k].benefited
      && CostOf(a[k]) == CostOf(b[k])
  }

  lemma {:induction false} SameChargesSameEntries(a: seq<Item>, b: seq<Item>, p: Participant)
    requires SameCharges(a, b)
    ensures ShareEntries(BenefitedItems(a, p)) == ShareEntries(BenefitedItems(b, p))
  {
    if a != [] {
      assert SameCharges(a[1..], b[1..]);
      SameChargesSameEntries(a[1..], b[1..], p);
      assert a == [a[0]] + a[1..] && b == [b[0]] + b[1..];
      EntriesCons(a[0], a[1..], p);
      EntriesCons(b[0], b[1..], p);
    }
  }

  lemma {:induction false} SameChargesSamePaid(a: seq<Item>, b: seq<Item>, p: Participant)
    requires SameCharges(a, b)
    ensures SumCosts(PaidItems(a, p)) == SumCosts(PaidItems(b, p))
  {
    if a != [] {
      assert SameCharges(a[1..], b[1..]);
      SameChargesSamePaid(a[1..], b[1..], p);
      assert a == [a[0]] + a[1..] && b == [b[0]] + b[1..];
      PaidTotalCons(a[0], a[1..], p);
      PaidTotalCons(b[0], b[1..], p);
    }
  }

  /** The calculator gives the same detail for item lists it cannot tell apart. */
  lemma SameChargesSameDetail(a: seq<Item>, b: seq<Item>, p: Participant)
    requires SameCharges(a, b)
    ensures DetailOf(a, p) == DetailOf(b, p)
  {
    SameChargesSameEntries(a, b, p);
    SameChargesSamePaid(a, b, p);
  }

  /** An item without a currency settles exactly as if its currency had rate 1.0. */
  lemma NullCurrencyIsRateOne(s: Settlement, k: nat, c: Currency)
    requires k < |s.items| && s.items[k].currency.None? && c.rate == 1.0
    ensures ToSettlementResult(s.(items := s.items[k := s.items[k].(currency := Some(c))]))
         == ToSettlementResult(s)
  {
    var items' := s.items[k := s.items[k].(currency := Some(c))];
    assert CostOf(items'[k]) == CostOf(s.items[k]);
    assert SameCharges(items', s.items);
    var d', d := Details(items', s.participants), Details(s.items, s.participants);
    forall j | 0 <= j < |s.participants|
      ensures d'[j] == d[j]
    {
      SameChargesSameDetail(items', s.items, s.participants[j]);
    }
    assert d' == d;
  }

  // ---------------------------------------------------------------------------
  // Surplus
  // ---------------------------------------------------------------------------

  /** Everyone's expenditures, participant by participant. */
  function SumExpenditures(items: seq<Item>, ps: seq<Participant>): int
  {
    if ps == [] then 0 else DetailOf(items, ps[0]).expenditures + SumExpenditures(items, ps[1..])
  }

  /** Everyone's (floored) payments, participant by participant. */
  function SumPayments(items: seq<Item>, ps: seq<Participant>): int
  {
    if ps == [] then 0 else DetailOf(items, ps[0]).payments + SumPayments(items, ps[1..])
  }

  lemma {:induction false} SumDifferencesOfDetails(items: seq<Item>, ps: seq<Participant>)
    ensures SumDifferences(Details(items, ps)) == SumExpenditures(items, ps) - SumPayments(items, ps)
  {
    if ps != [] {
      SumDifferencesOfDetails(items, ps[1..]);
      assert Details(items, ps)[1..] == Details(items, ps[1..]);
    }
  }

  /** The surplus is everyone's expenditures minus everyone's payments. */
  lemma SurplusIsExpendituresMinusPayments(s: Settlement)
    ensures ToSettlementResult(s).surplus
         == SumExpenditures(s.items, s.participants) - SumPayments(s.items, s.participants)
  {
    SumDifferencesOfDetails(s.items, s.participants);
  }
}

=== FILE: surplus_bound.dfy ===
/**
 * Bounds on the surplus. Each beneficiary's share is floored on its own, and
 * each payer's total is floored once, so the shares of an item can add up to
 * less than what its payer is credited with, never to more. Provided that
 * every item has one of the participants as its payer and a non-empty list
 * of distinct beneficiaries drawn from them, and that the participants are
 * distinct, the surplus is never positive. For a settlement with at least
 * one item, it is also more than minus the total number of beneficiary slots.
 */
module SurplusBound {
  import opened Wrappers
  import opened Model
  import opened ModelMapping
  import opened SettlementResultProperties

  predicate Distinct<T(==)>(s: seq<T>)
  {
    s == [] || (s[0] !in s[1..] && Distinct(s[1..]))
  }

  /** How many times `x` occurs in `s`. */
  function Occurrences<T(==)>(s: seq<T>, x: T): nat
  {
    if s == [] then 0 else (if s[0] == x then 1 else 0) + Occurrences(s[1..], x)
  }

  /** How many of the participants `ps` are among the beneficiaries `benefited`. */
  function CountIn(ps: seq<Participant>, benefited: seq<Participant>): nat
  {
    if ps == [] then 0 else (if ps[0] in benefited then 1 else 0) + CountIn(ps[1..], benefited)
  }

  /** The conditions under which the surplus is bounded. */
  ghost predicate Balanced(s: Settlement)
  {
    && Distinct(s.participants)
    && (forall i | i in s.items :: i.payer.Some? && i.payer.value in s.participants)
    && SharedAmong(s.items, s.participants)
  }

  /** Everyone's unfloored paid totals, participant by participant. */
  function SumPaid(items: seq<Item>, ps: seq<Participant>): real
  {
    if ps == [] then 0.0 else SumCosts(PaidItems(items, ps[0])) + SumPaid(items, ps[1..])
  }

  /** Beneficiary slots over all items: the most the shares can fall short by. */
  function Slots(items: seq<Item>): nat
  {
    if items == [] then 0 else |items[0].benefited| + Slots(items[1..])
  }

  // ---------------------------------------------------------------------------
  // Counting
  // ---------------------------------------------------------------------------

  lemma {:induction false} OccursOnce<T>(s: seq<T>, x: T)
    requires Distinct(s)
    ensures Occurrences(s, x) == (if x in s then 1 else 0)
  {
    if s != [] {
      OccursOnce(s[1..], x);
      assert s == [s[0]] + s[1..];
    }
  }

  lemma {:induction false} CountInCons(ps: seq<Participant>, b: Participant, rest: seq<Participant>)
    requires b !in rest
    ensures CountIn(ps, [b] + rest) == Occurrences(ps, b) + CountIn(ps, rest)
  {
    if ps != [] {
      CountInCons(ps[1..], b, rest);
    }
  }

  /** Distinct participants that include every one of distinct beneficiaries count each of them once. */
  lemma {:induction false} CountInAll(ps: seq<Participant>, benefited: seq<Participant>)
    requires Distinct(ps) && Distinct(benefited)
    requires forall b | b in benefited :: b in ps
    ensures CountIn(ps, benefited) == |benefited|
  {
    if benefited == [] {
      CountInNone(ps);
    } else {
      var b, rest := benefited[0], benefited[1..];
      assert benefited == [b] + rest;
      CountInAll(ps, rest);
      CountInCons(ps, b, rest);
      OccursOnce(ps, b);
    }
  }

  lemma {:induction false} CountInNone(ps: seq<Participant>)
    ensures CountIn(ps, []) == 0
  {
    if ps != [] {
      CountInNone(ps[1..]);
    }
  }

  // ---------------------------------------------------------------------------
  // Sums over participants, one item at a time
  // ---------------------------------------------------------------------------

  /** An item adds its share once for every participant who benefits from it. */
  lemma {:induction false} SumExpendituresCons(i: Item, rest: seq<Item>, ps: seq<Participant>)
    requires |i.benefited| > 0
    ensures SumExpenditures([i] + rest, ps) == ShareOf(i) * CountIn(ps, i.benefited) + SumExpenditures(rest, ps)
  {
    if ps != [] {
      SumExpendituresCons(i, rest, ps[1..]);
      ExpendituresCons(i, rest, ps[0]);
      var share, here, later := ShareOf(i), (if ps[0] in i.benefited then 1 else 0), CountIn(ps[1..], i.benefited);
      assert CountIn(ps, i.benefited) == here + later;
      assert share * (here + later) == share * here + share * later;
    }
  }

  /** Among distinct participants, an item adds its cost to the paid totals once if its payer is one of them. */
  lemma {:induction false} SumPaidCons(i: Item, rest: seq<Item>, ps: seq<Participant>, q: Participant)
    requires Distinct(ps) && i.payer == Some(q)
    ensures SumPaid([i] + rest, ps) == (if q in ps then CostOf(i) else 0.0) + SumPaid(rest, ps)
  {
    if ps != [] {
      var x := ps[0];
      assert ps == [x] + ps[1..];
      SumPaidCons(i, rest, ps[1..], q);
      PaidTotalCons(i, rest, x);
    }
  }

  /** Flooring each participant's total credits a payer at least the floor of each item it paid. */
  lemma {:induction false} SumPaymentsCons(i: Item, rest: seq<Item>, ps: seq<Participant>, q: Participant)
    requires Distinct(ps) && i.payer == Some(q)
    ensures SumPayments([i] + rest, ps) >= (if q in ps then CostOf(i).Floor else 0) + SumPayments(rest, ps)
  {
    if ps != [] {
      var x := ps[0];
      assert ps == [x] + ps[1..];
      SumPaymentsCons(i, rest, ps[1..], q);
      PaidTotalCons(i, rest, x);
      var paidRest := SumCosts(PaidItems(rest, x));
      if q == x {
        FloorSuperadditive(CostOf(i), paidRest);
      } else {
        assert 0.0 + paidRest == paidRest;
      }
    }
  }

  lemma {:induction false} SumPaymentsBelowSumPaid(items: seq<Item>, ps: seq<Participant>)
    ensures SumPayments(items, ps) as real <= SumPaid(items, ps)
  {
    if ps != [] {
      SumPaymentsBelowSumPaid(items, ps[1..]);
    }
  }

  // ---------------------------------------------------------------------------
  // Sums over items
  // ---------------------------------------------------------------------------

  /** The shares of an item, one per beneficiary, add up to at most the floor of its cost. */
  lemma SharesBelowFloor(i: Item)
    requires |i.benefited| > 0
    ensures ShareOf(i) * |i.benefited| <= CostOf(i).Floor
    ensures CostOf(i) - (|i.benefited| as real) < (ShareOf(i) * |i.benefited|) as real
  {
    var n := |i.benefited|;
    assert ((ShareOf(i) + 1) * n) as real == ((ShareOf(i) + 1) as real) * (n as real);
    assert (ShareOf(i) * n) as real == (ShareOf(i) as real) * (n as real);
  }

  /** The beneficiary conditions of `Balanced`, for an item list and the participants `ps`. */
  ghost predicate SharedAmong(items: seq<Item>, ps: seq<Participant>)
  {
    forall i | i in items :: |i.benefited| > 0 && Distinct(i.benefited) && forall b | b in i.benefited :: b in ps
  }

  lemma SharedAmongRest(items: seq<Item>, ps: seq<Participant>)
    requires items != [] && SharedAmong(items, ps)
    ensures SharedAmong(items[1..], ps)
    ensures |items[0].benefited| > 0 && Distinct(items[0].benefited)
    ensures forall b | b in items[0].benefited :: b in ps
  {
    assert items[0] in items;
  }

  /** Among distinct participants, an item shared by distinct participants adds its share once per beneficiary. */
  lemma ExpendituresStep(i: Item, rest: seq<Item>, ps: seq<Participant>)
    requires Distinct(ps) && |i.benefited| > 0 && Distinct(i.benefited)
    requires forall b | b in i.benefited :: b in ps
    ensures SumExpenditures([i] + rest, ps) == ShareOf(i) * |i.benefited| + SumExpenditures(rest, ps)
  {
    SumExpendituresCons(i, rest, ps);
    CountInAll(ps, i.benefited);
  }

  lemma {:induction false} ExpendituresBelowItemFloors(items: seq<Item>, ps: seq<Participant>)
    requires Distinct(ps) && SharedAmong(items, ps)
    ensures SumExpenditures(items, ps) <= ItemFloors(items)
  {
    if items == [] {
      SumExpendituresEmpty(ps);
    } else {
      var i, rest := items[0], items[1..];
      assert items == [i] + rest;
      SharedAmongRest(items, ps);
      ExpendituresBelowItemFloors(rest, ps);
      ExpendituresStep(i, rest, ps);
      SharesBelowFloor(i);
    }
  }

  lemma {:induction false} ExpendituresAboveCosts(items: seq<Item>, ps: seq<Participant>)
    requires Distinct(ps) && SharedAmong(items, ps) && items != []
    ensures SumCosts(items) - (Slots(items) as real) < SumExpenditures(items, ps) as real
  {
    var i, rest := items[0], items[1..];
    assert items == [i] + rest;
    SharedAmongRest(items, ps);
    ExpendituresStep(i, rest, ps);
    SharesBelowFloor(i);
    if rest == [] {
      SumExpendituresEmpty(ps);
    } else {
      ExpendituresAboveCosts(rest, ps);
    }
  }

  lemma {:induction false} SumExpendituresEmpty(ps: seq<Participant>)
    ensures SumExpenditures([], ps) == 0
  {
    if ps != [] {
      SumExpendituresEmpty(ps[1..]);
    }
  }

  lemma {:induction false} PaymentsBounds(items: seq<Item>, ps: seq<Participant>)
    requires Distinct(ps)
    requires forall i | i in items :: i.payer.Some? && i.payer.value in ps
    ensures ItemFloors(items) <= SumPayments(items, ps)
    ensures SumPaid(items, ps) == SumCosts(items)
  {
    if items == [] {
      NothingPaid(ps);
    } else {
      var i, rest := items[0], items[1..];
      assert items == [i] + rest;
      assert i in items;
      PaymentsBounds(rest, ps);
      SumPaymentsCons(i, rest, ps, i.payer.value);
      SumPaidCons(i, rest, ps, i.payer.value);
      assert ItemFloors(items) == CostOf(i).Floor + ItemFloors(rest);
      assert SumCosts(items) == CostOf(i) + SumCosts(rest);
    }
  }

  lemma {:induction false} NothingPaid(ps: seq<Participant>)
    ensures SumPayments([], ps) == 0 && SumPaid([], ps) == 0.0
  {
    if ps != [] {
      NothingPaid(ps[1..]);
    }
  }

  // ---------------------------------------------------------------------------
  // The surplus
  // ---------------------------------------------------------------------------

  /**
   * In a balanced settlement the floored shares never add up to more than the
   * floored payments: the surplus is zero or negative.
   */
  lemma SurplusNonPositive(s: Settlement)
    requires Balanced(s)
    ensures ToSettlementResult(s).surplus <= 0
  {
    SumDifferencesOfDetails(s.items, s.participants);
    ExpendituresBelowItemFloors(s.items, s.participants);
    PaymentsBounds(s.items, s.participants);
  }

  /**
   * In a balanced settlement with at least one item, the surplus is larger
   * than minus the number of beneficiary slots: each beneficiary's share
   * loses less than one unit to flooring.
   */
  lemma SurplusAboveMinusSlots(s: Settlement)
    requires Balanced(s) && s.items != []
    ensures -(Slots(s.items) as int) < ToSettlementResult(s).surplus
  {
    SumDifferencesOfDetails(s.items, s.participants);
    ExpendituresAboveCosts(s.items, s.participants);
    PaymentsBounds(s.items, s.participants);
    SumPaymentsBelowSumPaid(s.items, s.participants);
  }
}

=== FILE: wrappers.dfy ===
/** The optional value used for Kotlin's nullable references (`Participant?`, `Currency?`). */
module Wrappers {

  datatype Option<+T> = None | Some(value: T)
}
